=== FILE: README.md ===
# CaptchaV2 core, modelled in Dafny

CaptchaV2 is a bot-detection login page. It has two parts:

- A React client decides whether the visitor is on a mobile device and renders either a desktop or a mobile login form. The mobile form has a consent checkbox with an animated checkmark.
- A Flask backend turns behavioural measurements into a feature vector for a scikit-learn pipeline (scaler, KMeans, logistic regression). It answers `human` or `bot`.

This project models the deterministic logic of both parts as pure Dafny functions and proves properties about them:

| file | module | models |
|---|---|---|
| `wrappers.dfy` | `Wrappers` | `Option` and `Result` |
| `text.dfy` | `Text` | ASCII case folding as done by a JavaScript `/i` pattern, case-insensitive substring search, decimal rendering of integers |
| `http.dfy` | `Http` | status codes and JSON reply bodies |
| `schema.dfy` | `FeatureSchema` | the request schema of `Backend/fixed_app.py` and the start-up fold that derives the expected feature count |
| `fixed_app.dfy` | `FixedApp` | feature-vector extraction and validation in `Backend/fixed_app.py`, and its label mapping |
| `draft_app.dfy` | `DraftApp` | the 21-entry vector with per-key defaults in `Backend/app.3.py`, plus that endpoint's status-code selection |
| `device.dfy` | `Device` | `checkDevice` in `frontend/src/App.js` |
| `view_controller.dfy` | `ViewController` | the `isMobile` state in `App.js`: mount, resize, the listener cleanup, the view and loading message it selects, and the width-only stylesheet |
| `consent_toggle.dfy` | `ConsentToggle` | the `isChecked` state of `frontend/src/components/loginMobile.jsx` and everything rendered from it |

Feature values are `real`. The classifier's class and cluster id are plain integer inputs.

There is no slide carousel in the code. The desktop form (`login.jsx`) is static markup and has no consent toggle; the toggle lives only in the mobile form.

Some properties worth knowing, all proved:

- `ViewController.SelectedViewShownIff` and `ViewController.WideTabletSeesNoForm`: the device check ORs the user-agent match with the width test (`App.js` lines 13-15), but the stylesheet hides views by width alone. So a tablet user agent at 769 pixels or wider renders the mobile form inside a hidden container. An iPad at 1024 pixels sees no form.
- `DraftApp.OppositeLabelConventions`: the two backends map classes to labels in opposite ways. `fixed_app.py` calls class 0 `human`; `app.3.py` calls class 1 `human`.
- `FixedApp.ExtractLengthCheck`: in `fixed_app.py` the feature-count check fails exactly when `Time_per_Field` does not have three entries.
- `DraftApp.Predict`: in `app.3.py` the count check can never fail. A reply is 400 only for a non-JSON request or a validation error.

## Model

| member | source | states |
|---|---|---|
| `FeatureSchema.ScalarPrefixNames` | Backend/fixed_app.py:107-123 | a run of plain fields at the head of the schema contributes each of its names, in declaration order |
| `FixedApp.ScalarFeaturesAreSchemaScalars` | Backend/fixed_app.py:178-196 | the handler's list of seventeen measurements is exactly the schema's plain fields (declared at lines 107-123), in declaration order |
| `FeatureSchema.ExpectedCount` | Backend/fixed_app.py:133-146 | the start-up fold: one feature per plain field, the sub-field count per nested field, four per list field; its value on the schema is given by `ExpectedFeatureCountIs24` and its additivity by `ExpectedCountAppend` |
| `FeatureSchema.ExpectedFeatureCountIs24` | Backend/fixed_app.py:133-146 | the start-up fold over the declared schema gives 24: 17 plain fields, plus 3 nested sub-fields, plus 4 known click types |
| `FeatureSchema.ExpectedCountAppend` | Backend/fixed_app.py:134-146 | the fold is additive over any split of the declaration list, so each field adds its own width wherever it is declared |
| `FixedApp.ExtractScalars` | Backend/fixed_app.py:177-201 | succeeds iff every named measurement has a value; on success the vector holds exactly those values in list order; otherwise the error names the first missing measurement in list order |
| `FixedApp.FlattenTimes` | Backend/fixed_app.py:209-214 | succeeds iff every timing is non-`None`; on success the timings appear in iteration order; otherwise the error names the first untimed field |
| `FixedApp.Tally` | Backend/fixed_app.py:223-225 | the click-count dictionary built one click at a time; `TallyCountsOccurrences` and `TallyCountsAll` state that each entry is the number of occurrences |
| `FixedApp.TallyCountsOccurrences` | Backend/fixed_app.py:223-225 | the click-count dictionary, built one click at a time, maps each string to its number of occurrences in the sequence |
| `FixedApp.ClickFeatures` | Backend/fixed_app.py:223-230 | four entries: the occurrence counts of `left_click`, `right_click`, `double_click` and `middle_click`, in that order |
| `FixedApp.UnknownClickIgnored` | Backend/fixed_app.py:223-230 | appending a click string outside the four known types leaves the four counts unchanged |
| `FixedApp.KnownClickTotalBounded` | Backend/fixed_app.py:223-230 | the four counts sum to at most the length of the click sequence |
| `FixedApp.Message` | Backend/fixed_app.py:198-239 | the four error texts, character for character: the missing feature, the missing Time_per_Field, the untimed field and the count mismatch with both numbers in decimal; `Respond` sends it with every 400 |
| `FixedApp.ExtractFeatures` | Backend/fixed_app.py:176-239 | a successful vector has 24 entries and Time_per_Field had 3 entries; entries 0-16 are the named measurements unchanged, 17-19 the timings, 20-23 the click counts |
| `FixedApp.ExtractReportsFirstMissingFeature` | Backend/fixed_app.py:197-200 | if a named measurement is missing, the result is the error naming the first missing one in list order, whatever the rest of the request holds |
| `FixedApp.ExtractRequiresTimePerField` | Backend/fixed_app.py:204-207 | with every measurement present, an empty Time_per_Field is the "Missing 'Time_per_Field' data." error |
| `FixedApp.ExtractReportsFirstUntimedField` | Backend/fixed_app.py:210-213 | with every measurement present, a `None` timing gives the error naming the first such field |
| `FixedApp.ExtractLengthCheck` | Backend/fixed_app.py:235-239 | once measurements and timings are complete, the mismatch error (expected 24, got 21 + number of timings) fires iff Time_per_Field does not have exactly 3 entries |
| `FixedApp.ExtractSucceedsIff` | Backend/fixed_app.py:176-239 | extraction succeeds iff all 17 measurements are present, Time_per_Field has 3 entries, and all of them are timed |
| `FixedApp.Label` | Backend/fixed_app.py:283 | class 0 is `human`; every other class is `bot` |
| `FixedApp.Respond` | Backend/fixed_app.py:283-297 | 200 iff extraction succeeds, carrying exactly the label of the class (`human` for 0, `bot` otherwise) and the unchanged cluster id; otherwise 400 with the extraction error's message |
| `DraftApp.BuildFeatures` | Backend/app.3.py:90-114 | 21 entries; entries 0-19 are the listed keys' values, 0 when absent; entry 20 is the Time_per_Field entry |
| `DraftApp.DefaultsAndCopies` | Backend/app.3.py:91-110 | an absent key gives 0 at its fixed position; a present key's value is copied unchanged |
| `DraftApp.SumAppend` | Backend/app.3.py:113 | the timing sum of a concatenation is the sum of the parts' sums |
| `DraftApp.TimeFeature` | Backend/app.3.py:113 | entry 20: the sum of the timings, or 0 for an empty or absent Time_per_Field; stated by `TimeFeatureEmptyIsAbsent` and `TimeFeatureIgnoresOrder` |
| `DraftApp.SumIgnoresOrder` | Backend/app.3.py:113 | two lists holding the same values with the same multiplicities have the same sum |
| `DraftApp.TimeFeatureIgnoresOrder` | Backend/app.3.py:113 | entry 20 is the same whatever order the Time_per_Field dictionary yields its values in |
| `DraftApp.TimeFeatureEmptyIsAbsent` | Backend/app.3.py:113 | an empty Time_per_Field and an absent one both give entry 20 the value 0 |
| `DraftApp.VectorOrderIsFixed` | Backend/app.3.py:49-114 | the vector order is the declaration order with Time_per_Field removed and its sum moved to the end: Sequence_of_Clicks is at index 14 (declared 16th), and the timing sum is at index 20 (declared 7th) |
| `DraftApp.Label` | Backend/app.3.py:137 | prediction 1 is `human`; anything else is `bot` |
| `DraftApp.OppositeLabelConventions` | Backend/app.3.py:137 | for classes 0 and 1 the draft label differs from the fixed backend's label, and together the two labels are `human` and `bot` |
| `DraftApp.Predict` | Backend/app.3.py:76-147 | 400 iff the request is not JSON (a fixed message, before parsing) or fails validation (with its messages); 500 iff the JSON body does not parse or the models raise, carrying that exception's text; 200 otherwise, with the label and cluster; the count-mismatch reply never occurs |
| `Text.SearchFrom` | frontend/src/App.js:13-14 | scanning left to right from an offset finds the pattern iff it occurs, ignoring ASCII case, at that offset or later |
| `Text.ContainsIgnoringCase` | frontend/src/App.js:13-14 | the scan from offset 0 decides the case-insensitive substring relation |
| `Text.ContainsFoldLower` | frontend/src/App.js:13 | lower-casing the searched string never changes whether the pattern occurs |
| `Text.Decimal` | Backend/fixed_app.py:239 | the decimal rendering of a count in the mismatch message: digits only, exactly one digit iff the number is below 10, and no leading zero above that; `DecimalRoundTrip` states it reads back as the same number |
| `Text.DecimalRoundTrip` | Backend/fixed_app.py:237-239 | the decimal rendering used in the mismatch message reads back as the same number |
| `Device.MatchesAny` | frontend/src/App.js:13-14 | trying the alternatives in turn says true iff the user agent contains one of them, ignoring case |
| `Device.CheckDevice` | frontend/src/App.js:12-16 | mobile iff the user agent names one of the 8 platform tokens, ignoring case, or the width is at most 768 |
| `Device.NarrowIsMobile` | frontend/src/App.js:15 | any width of 768 or less is mobile, whatever the user agent |
| `Device.MobileTokenIsMobile` | frontend/src/App.js:13-14 | a user agent containing any of the 8 tokens, ignoring case, is mobile at every width |
| `Device.WideUnknownIsDesktop` | frontend/src/App.js:13-15 | with no token match and a width above 768, the result is desktop |
| `Device.EmptyUserAgentFallsToWidth` | frontend/src/App.js:13-15 | an empty user agent matches no token, so the width alone decides |
| `Device.CaseDoesNotMatter` | frontend/src/App.js:13 | lower-casing the user agent never changes the classification |
| `Device.PhoneIsMobile` | frontend/src/App.js:12-16 | an iPhone user agent at 400 pixels is mobile |
| `Device.WindowsDesktopIsDesktop` | frontend/src/App.js:12-16 | a Windows desktop user agent at 1024 pixels is desktop |
| `ViewController.FirstRender` | frontend/src/App.js:9 | before any effect runs, `isMobile` is false and no listener is registered |
| `ViewController.Mount` | frontend/src/App.js:11-21 | the mount effect sets `isMobile` from the device check and registers one new closure, not registered before, as a resize listener |
| `ViewController.Resize` | frontend/src/App.js:21 | while the closure is registered, a resize sets `isMobile` from the current inputs; otherwise nothing changes; the listener set is never touched |
| `ViewController.Unmount` | frontend/src/App.js:22-24 | the cleanup removes exactly the App's closure and keeps every other listener, so the App no longer listens; with no closure registered it changes nothing |
| `ViewController.SameClassificationNoChange` | frontend/src/App.js:16 | a resize that leaves the classification as it was leaves the whole state unchanged |
| `ViewController.FlagFollowsLatestResize` | frontend/src/App.js:19-21 | while mounted, after any run of resizes `isMobile` is the classification of the last one, and the listener set and handler are unchanged |
| `ViewController.NoUpdateAfterUnmount` | frontend/src/App.js:21-24 | after the cleanup, no run of resize events changes anything |
| `ViewController.ListenersRestored` | frontend/src/App.js:21-24 | mount, any resizes, then unmount leave the window's listener set as it was before the mount |
| `ViewController.RenderedView` | frontend/src/App.js:30-38 | the view the flag selects; `ViewAndMessageAgree` states exactly one is rendered |
| `ViewController.LoadingMessage` | frontend/src/App.js:57 | the loading text the flag selects; `ViewAndMessageAgree` states it names the rendered view |
| `ViewController.ViewAndMessageAgree` | frontend/src/App.js:30-57 | exactly one of MobileLogin and Login is rendered, and the loading message names the same one |
| `ViewController.ExactlyOneContainerHidden` | frontend/src/App.js:78-88 | the desktop container is hidden iff width is at most 768, the mobile container iff width is at least 769, and exactly one is hidden at every whole width |
| `ViewController.SelectedViewShownIff` | frontend/src/App.js:30-88 | the selected view is on screen iff it is not the case that the user agent names a mobile token and the width is at least 769 |
| `ViewController.WideTabletSeesNoForm` | frontend/src/App.js:30-88 | an iPad user agent at 1024 pixels renders the mobile form inside a hidden container |
| `ConsentToggle.HandleChange` | frontend/src/components/loginMobile.jsx:20-22 | every change event flips `isChecked` |
| `ConsentToggle.ChangeTwiceRestores` | frontend/src/components/loginMobile.jsx:20-22 | two consecutive changes restore the original state |
| `ConsentToggle.TickedAfterOddChanges` | frontend/src/components/loginMobile.jsx:8-22 | starting from the initial false state, the box is ticked iff an odd number of changes occurred |
| `ConsentToggle.Present` | frontend/src/components/loginMobile.jsx:73-89 | everything rendered from the state: the checkbox value, the box classes and the checkmark variants; stated by `CheckboxMirrorsState`, `GreenIffTicked`, `CheckmarkFollowsState` and `PresentationDeterminedByState` |
| `ConsentToggle.CheckboxMirrorsState` | frontend/src/components/loginMobile.jsx:76-77 | the hidden checkbox's `checked` always equals `isChecked` |
| `ConsentToggle.GreenIffTicked` | frontend/src/components/loginMobile.jsx:80-82 | the green border and background classes are present iff ticked; the gray border and white background classes iff not |
| `ConsentToggle.CheckmarkFollowsState` | frontend/src/components/loginMobile.jsx:88-89 | the checkmark animates to `visible` iff ticked, always starts from `hidden`, and has nothing to animate on first render |
| `ConsentToggle.PresentationDeterminedByState` | frontend/src/components/loginMobile.jsx:76-89 | two states render identically iff they are the same state |
| `ConsentToggle.HandleFocus` | frontend/src/components/loginMobile.jsx:10-18 | focus animates exactly the focused field and leaves `isChecked` unchanged |
| `ConsentToggle.FocusCommutesWithChange` | frontend/src/components/loginMobile.jsx:10-22 | focusing before or after a change gives the same consent state |

## Left out

- The request handler of `fixed_app.py` is not modelled. As written, lines 160-297 are indented inside the `except` block opened at line 157, so a JSON request never reaches them. The extraction and the reply are modelled as standalone functions (`FixedApp.ExtractFeatures`, `FixedApp.Respond`).
- The empty-body check of `fixed_app.py` (lines 161-164) is part of that unreachable dispatch and is not modelled.
- Marshmallow validation is not modelled. The validated data is an input: a map for the named values, a sequence of (name, value) pairs for Time_per_Field in dictionary iteration order, and a sequence of strings for the clicks. The "must be a list" check (lines 217-220) cannot fail on validated data, so it is not modelled.
- Model loading and the scaler, KMeans and logistic-regression calls are foreign library code. In `fixed_app.py` their 500 branches (lines 246-291) are not modelled; the class and cluster are integer inputs. In `app.3.py` any exception they raise is the `Raised` input of `DraftApp.Predict`; the parser's exception for an empty or malformed JSON body is the `Unparsable` validation outcome, and its message text is an input. The returned probability is not modelled.
- Floating-point rounding is not modelled. Feature values and the timing sum are exact `real`s.
- Not modelled because they are library glue: Flask routing, CORS, dotenv, logging, the health check, static-file serving with its filesystem checks, JSON serialisation, and the scikit-learn version check.
- `Backend/gif_generator.py`, `login.jsx` and `header.jsx` are not modelled. They are random drawing code and static markup.
- Not modelled: the gsap and framer-motion durations, easings, scale factors and the entrance animation. The focus handler is modelled only as "pulse this field".
- Submit and OTP buttons are not modelled. They call no code.
- Viewport widths are whole pixels, as `innerWidth` reports them. Fractional CSS widths between 768 and 769, which match neither media query, are not modelled.
- Case folding is ASCII only. For the ASCII tokens of the pattern this matches JavaScript's `/i`, which never folds a non-ASCII character onto an ASCII one.
- React scheduling is not modelled: batching, StrictMode double effects, and remounting of child components. `Mount` requires that the effect has not run yet, which is what React guarantees for an effect with an empty dependency list.

=== FILE: consent_toggle.dfy ===
/** The mobile login form's consent checkbox: one boolean of state, flipped
    by every change event, from which the hidden checkbox's value, the box's
    style classes and the checkmark's animation target are all derived. The
    form's focus handler only animates the focused field. */
module ConsentToggle {

  /** The component's state: `isChecked`. */
  datatype Toggle = Toggle(isChecked: bool)

  /** `useState(false)`: the box starts unticked. */
  const Initial: Toggle := Toggle(false)

  /** `handleChange`: set the state to the negation of the current one. */
  function HandleChange(t: Toggle): (u: Toggle)
    ensures u.isChecked != t.isChecked
  {
    Toggle(!t.isChecked)
  }

  /** Two changes in a row restore the state. */
  lemma ChangeTwiceRestores(t: Toggle)
    ensures HandleChange(HandleChange(t)) == t
  {
  }

  /** `n` change events in a row. */
  function ChangeTimes(t: Toggle, n: nat): Toggle {
    if n == 0 then t else HandleChange(ChangeTimes(t, n - 1))
  }

  /** From the initial state, the box is ticked after an odd number of
      changes and unticked after an even number. */
  lemma {:induction false} TickedAfterOddChanges(n: nat)
    ensures ChangeTimes(Initial, n).isChecked <==> n % 2 == 1
  {
    if n > 0 {
      TickedAfterOddChanges(n - 1);
    }
  }

  /** The framer-motion variant names of the checkmark. */
  datatype Variant = Visible | Hidden

  /** Everything the component renders from its state. */
  datatype Presentation = Presentation(
    checkboxChecked: bool,
    boxClasses: seq<string>,
    initialVariant: Variant,
    animateVariant: Variant)

  const BoxLayoutClasses: seq<string> := ["w-6", "h-6", "border-2", "rounded-md"]
  const CheckedClasses: seq<string> := ["border-green-500", "bg-green-50"]
  const UncheckedClasses: seq<string> := ["border-gray-500", "bg-white"]
  const BoxTransitionClasses: seq<string> := ["transition-colors", "duration-200", "ease-in-out"]

  /** The render: the checkbox is controlled by the state, the box's class
      list switches its colour pair, and the checkmark always starts from the
      hidden variant and animates towards the one the state selects. */
  function Present(t: Toggle): Presentation {
    Presentation(
      t.isChecked,
      BoxLayoutClasses + (if t.isChecked then CheckedClasses else UncheckedClasses) + BoxTransitionClasses,
      Hidden,
      if t.isChecked then Visible else Hidden)
  }

  /** The hidden checkbox always shows the state. */
  lemma CheckboxMirrorsState(t: Toggle)
    ensures Present(t).checkboxChecked == t.isChecked
  {
  }

  /** The green border and background are applied exactly when ticked, the
      gray border and white background exactly when not. */
  lemma GreenIffTicked(t: Toggle)
    ensures "border-green-500" in Present(t).boxClasses <==> t.isChecked
    ensures "bg-green-50" in Present(t).boxClasses <==> t.isChecked
    ensures "border-gray-500" in Present(t).boxClasses <==> !t.isChecked
    ensures "bg-white" in Present(t).boxClasses <==> !t.isChecked
  {
    var classes := Present(t).boxClasses;
    if t.isChecked {
      assert classes[4] == "border-green-500" && classes[5] == "bg-green-50";
    } else {
      assert classes[4] == "border-gray-500" && classes[5] == "bg-white";
    }
  }

  /** The checkmark animates to visible exactly when ticked, and every
      render starts it from hidden; at first render nothing is animated. */
  lemma CheckmarkFollowsState(t: Toggle)
    ensures Present(t).animateVariant == Visible <==> t.isChecked
    ensures Present(t).initialVariant == Hidden
    ensures Present(Initial).animateVariant == Present(Initial).initialVariant
  {
  }

  /** The presentation is fully determined by the one boolean, and tells
      the two states apart. */
  lemma PresentationDeterminedByState(a: Toggle, b: Toggle)
    ensures Present(a) == Present(b) <==> a == b
  {
    if Present(a) == Present(b) {
      assert Present(a).checkboxChecked == Present(b).checkboxChecked;
    }
  }

  /** The one-shot scale-up the focus handler asks of its target field. */
  datatype FocusEffect = Pulse(target: string)

  /** `handleInputFocus`: animate the focused field; the consent state is
      left as it is. */
  function HandleFocus(t: Toggle, field: string): (r: (Toggle, FocusEffect))
    ensures r.0 == t
    ensures r.1.target == field
  {
    (t, Pulse(field))
  }

  /** Focus events interleaved with changes never alter the state the
      changes alone produce. */
  lemma FocusCommutesWithChange(t: Toggle, field: string)
    ensures HandleChange(HandleFocus(t, field).0) == HandleFocus(HandleChange(t), field).0
  {
  }
}

=== FILE: device.dfy ===
/** The client's device check: a user agent naming a mobile platform, in any
    letter case, or a viewport at most 768 pixels wide, means mobile. */
module Device {
  import opened Text

  /** The alternatives of the user-agent pattern, tested case-insensitively. */
  const MobileTokens: seq<string> := ["Android", "webOS", "iPhone", "iPad", "iPod", "BlackBerry", "IEMobile", "Opera Mini"]

  /** The widest viewport, in pixels, that counts as mobile on its own. */
  const MobileMaxWidth: int := 768

  /** The user agent names one of `tokens`. */
  predicate NamesAny(userAgent: string, tokens: seq<string>) {
    exists k :: 0 <= k < |tokens| && ContainsFold(userAgent, tokens[k])
  }

  /** The pattern test: each alternative in turn. */
  function MatchesAny(userAgent: string, tokens: seq<string>): (found: bool)
    ensures found <==> NamesAny(userAgent, tokens)
  {
    if |tokens| == 0 then false
    else
      ContainsIgnoringCase(userAgent, tokens[0])
      || (assert forall k :: 1 <= k < |tokens| ==> tokens[1..][k - 1] == tokens[k];
          MatchesAny(userAgent, tokens[1..]))
  }

  /** The user agent alone says mobile. */
  predicate MobileUserAgent(userAgent: string) {
    NamesAny(userAgent, MobileTokens)
  }

  /** The device check run at mount and on every resize. */
  function CheckDevice(userAgent: string, width: int): (isMobile: bool)
    ensures isMobile <==> MobileUserAgent(userAgent) || width <= MobileMaxWidth
  {
    MatchesAny(userAgent, MobileTokens) || width <= MobileMaxWidth
  }

  /** A narrow viewport is mobile whatever the user agent says. */
  lemma NarrowIsMobile(userAgent: string, width: int)
    requires width <= 768
    ensures CheckDevice(userAgent, width)
  {
  }

  /** A user agent naming a mobile platform is mobile at any width. */
  lemma MobileTokenIsMobile(userAgent: string, width: int, k: int)
    requires 0 <= k < |MobileTokens|
    requires ContainsFold(userAgent, MobileTokens[k])
    ensures CheckDevice(userAgent, width)
  {
  }

  /** Otherwise the device is a desktop. */
  lemma WideUnknownIsDesktop(userAgent: string, width: int)
    requires width > 768
    requires forall k :: 0 <= k < |MobileTokens| ==> !ContainsFold(userAgent, MobileTokens[k])
    ensures !CheckDevice(userAgent, width)
  {
  }

  /** An empty user agent matches nothing, so only the width decides. */
  lemma EmptyUserAgentFallsToWidth(width: int)
    ensures CheckDevice("", width) <==> width <= 768
  {
    forall k | 0 <= k < |MobileTokens|
      ensures !ContainsFold("", MobileTokens[k])
    {
      EmptyContainsNothing(MobileTokens[k]);
    }
  }

  /** Letter case in the user agent never changes the answer. */
  lemma CaseDoesNotMatter(userAgent: string, width: int)
    ensures CheckDevice(Lower(userAgent), width) == CheckDevice(userAgent, width)
  {
    forall k | 0 <= k < |MobileTokens|
      ensures ContainsFold(Lower(userAgent), MobileTokens[k]) <==> ContainsFold(userAgent, MobileTokens[k])
    {
      ContainsFoldLower(userAgent, MobileTokens[k]);
    }
  }

  /** An iPhone user agent in a 400-pixel viewport is mobile. */
  lemma PhoneIsMobile()
    ensures CheckDevice("Mozilla/5.0 (iPhone; CPU iPhone OS)", 400)
  {
  }

  /** A Windows desktop user agent in a 1024-pixel viewport is a desktop:
      each token has a letter that the user agent lacks in either case. */
  lemma WindowsDesktopIsDesktop()
    ensures !CheckDevice("Mozilla/5.0 (Windows NT 10.0)", 1024)
  {
    var ua := "Mozilla/5.0 (Windows NT 10.0)";
    var letters := [3, 1, 1, 1, 1, 0, 1, 1];  // r, e, P, P, P, B, E, p
    forall k | 0 <= k < |MobileTokens|
      ensures !ContainsFold(ua, MobileTokens[k])
    {
      AbsentLetterRulesOut(ua, MobileTokens[k], letters[k]);
    }
    WideUnknownIsDesktop(ua, 1024);
  }
}

=== FILE: draft_app.dfy ===
/** The draft prediction backend: a fixed-position 21-entry feature vector in
    which every absent measurement reads as 0 and the last entry is the sum
    of the Time_per_Field timings, and the reply the endpoint sends for each
    outcome. Its class-label convention is the opposite of the fixed
    backend's. */
module DraftApp {
  import opened Wrappers
  import opened Http
  import Text
  import FixedApp

  /** Validated request data: only the keys the request carried. */
  type ValidatedData = map<string, real>

  /** The keys read into positions 0..19 of the vector, in vector order. */
  const VectorKeys: seq<string> := [
    "Mouse_Speed",
    "Movement_Smoothness",
    "Acceleration",
    "Direction_Changes",
    "Session_Duration",
    "Total_Session_Time",
    "Time_to_Submit",
    "Typing_Speed",
    "Inter_Key_Interval",
    "Keystroke_Duration",
    "Typing_Variability",
    "Click_Interval",
    "Click_Rate",
    "Click_Consistency",
    "Sequence_of_Clicks",
    "Idle_Time_Between_Actions",
    "Idle_Time_Before_CAPTCHA",
    "Total_Idle_Time",
    "Rhythmic_Typing_Score",
    "Backspace_Count"
  ]

  /** The schema's fields in declaration order; Time_per_Field is declared
      seventh but feeds the last vector entry. */
  const SchemaOrder: seq<string> := [
    "Mouse_Speed",
    "Movement_Smoothness",
    "Acceleration",
    "Direction_Changes",
    "Session_Duration",
    "Total_Session_Time",
    "Time_per_Field",
    "Time_to_Submit",
    "Typing_Speed",
    "Inter_Key_Interval",
    "Keystroke_Duration",
    "Typing_Variability",
    "Click_Interval",
    "Click_Rate",
    "Click_Consistency",
    "Sequence_of_Clicks",
    "Idle_Time_Between_Actions",
    "Idle_Time_Before_CAPTCHA",
    "Total_Idle_Time",
    "Rhythmic_Typing_Score",
    "Backspace_Count"
  ]

  const FeatureCount: nat := 21

  /** `validated_data.get(key, 0)`: the integer and float defaults are both
      zero. */
  function GetOrZero(data: ValidatedData, key: string): real {
    if key in data then data[key] else 0.0
  }

  /** Python's `sum`, left to right from 0. */
  function Sum(xs: seq<real>): real {
    if |xs| == 0 then 0.0 else Sum(xs[..|xs| - 1]) + xs[|xs| - 1]
  }

  /** Summing a concatenation sums the parts. */
  lemma {:induction false} SumAppend(a: seq<real>, b: seq<real>)
    ensures Sum(a + b) == Sum(a) + Sum(b)
    decreases |b|
  {
    if |b| == 0 {
      assert a + b == a;
    } else {
      assert (a + b)[..|a + b| - 1] == a + b[..|b| - 1];
      SumAppend(a, b[..|b| - 1]);
    }
  }

  /** The sum does not depend on the order of its terms: any rearrangement
      of the same values sums to the same total. */
  lemma {:induction false} SumIgnoresOrder(a: seq<real>, b: seq<real>)
    requires multiset(a) == multiset(b)
    ensures Sum(a) == Sum(b)
    decreases |a|
  {
    if |a| > 0 {
      var a' := a[..|a| - 1];
      var x := a[|a| - 1];
      assert a == a' + [x];
      assert x in multiset(b);
      var k :| 0 <= k < |b| && b[k] == x;
      var b' := b[..k] + b[k + 1..];
      assert b == b[..k] + [x] + b[k + 1..];
      calc {
        multiset(a') + multiset{x};
        multiset(a);
        multiset(b);
        multiset(b[..k]) + multiset{x} + multiset(b[k + 1..]);
        multiset(b') + multiset{x};
      }
      assert multiset(a') == multiset(a) - multiset{x};
      assert multiset(b') == multiset(b) - multiset{x};
      SumIgnoresOrder(a', b');
      SumAppend(b[..k] + [x], b[k + 1..]);
      SumAppend(b[..k], [x]);
      SumAppend(b[..k], b[k + 1..]);
      assert [x][..0] == [];
    } else {
      assert |b| == 0;
    }
  }

  /** The last entry: the sum of the timings when Time_per_Field is present
      and non-empty, 0 otherwise. */
  function TimeFeature(timePerField: Option<seq<real>>): real {
    match timePerField
    case Some(times) => if |times| > 0 then Sum(times) else 0.0
    case None => 0.0
  }

  /** Entry 20 does not depend on the order in which the Time_per_Field
      dictionary yields its values. */
  lemma TimeFeatureIgnoresOrder(a: seq<real>, b: seq<real>)
    requires multiset(a) == multiset(b)
    ensures TimeFeature(Some(a)) == TimeFeature(Some(b))
  {
    SumIgnoresOrder(a, b);
  }

  /** An empty Time_per_Field reads the same as an absent one. */
  lemma TimeFeatureEmptyIsAbsent()
    ensures TimeFeature(Some([])) == TimeFeature(None) == 0.0
  {
  }

  /** The vector as the handler lists it, entry by entry. */
  function BuildFeatures(data: ValidatedData, timePerField: Option<seq<real>>): (features: seq<real>)
    ensures |features| == FeatureCount
    ensures forall i :: 0 <= i < |VectorKeys| ==> features[i] == GetOrZero(data, VectorKeys[i])
    ensures features[20] == TimeFeature(timePerField)
  {
    [
      GetOrZero(data, "Mouse_Speed"),
      GetOrZero(data, "Movement_Smoothness"),
      GetOrZero(data, "Acceleration"),
      GetOrZero(data, "Direction_Changes"),
      GetOrZero(data, "Session_Duration"),
      GetOrZero(data, "Total_Session_Time"),
      GetOrZero(data, "Time_to_Submit"),
      GetOrZero(data, "Typing_Speed"),
      GetOrZero(data, "Inter_Key_Interval"),
      GetOrZero(data, "Keystroke_Duration"),
      GetOrZero(data, "Typing_Variability"),
      GetOrZero(data, "Click_Interval"),
      GetOrZero(data, "Click_Rate"),
      GetOrZero(data, "Click_Consistency"),
      GetOrZero(data, "Sequence_of_Clicks"),
      GetOrZero(data, "Idle_Time_Between_Actions"),
      GetOrZero(data, "Idle_Time_Before_CAPTCHA"),
      GetOrZero(data, "Total_Idle_Time"),
      GetOrZero(data, "Rhythmic_Typing_Score"),
      GetOrZero(data, "Backspace_Count"),
      TimeFeature(timePerField)
    ]
  }

  /** A key the request did not carry reads as 0 at its position; a key it
      did carry is copied unchanged. */
  lemma DefaultsAndCopies(data: ValidatedData, timePerField: Option<seq<real>>, i: int)
    requires 0 <= i < |VectorKeys|
    ensures VectorKeys[i] !in data ==> BuildFeatures(data, timePerField)[i] == 0.0
    ensures VectorKeys[i] in data ==> BuildFeatures(data, timePerField)[i] == data[VectorKeys[i]]
  {
  }

  /** The vector order is fixed by the handler, not by the schema: it is the
      declaration order with Time_per_Field taken out of seventh place and
      its sum moved to the end, so the click count sits at 14 (declared
      16th) and the timing sum at 20 (declared 7th). */
  lemma VectorOrderIsFixed()
    ensures VectorKeys[14] == "Sequence_of_Clicks" && SchemaOrder[15] == "Sequence_of_Clicks"
    ensures SchemaOrder[6] == "Time_per_Field" && "Time_per_Field" !in VectorKeys
    ensures VectorKeys == SchemaOrder[..6] + SchemaOrder[7..]
    ensures |VectorKeys| + 1 == |SchemaOrder| == FeatureCount
  {
  }

  /** Prediction 1 is a human, anything else a bot. */
  function Label(prediction: int): (verdict: string)
    ensures verdict == "human" <==> prediction == 1
    ensures verdict == "bot" <==> prediction != 1
  {
    if prediction == 1 then "human" else "bot"
  }

  /** On the two classes a binary classifier emits, the two backends give
      opposite labels. */
  lemma OppositeLabelConventions(prediction: int)
    requires prediction == 0 || prediction == 1
    ensures Label(prediction) != FixedApp.Label(prediction)
    ensures {Label(prediction), FixedApp.Label(prediction)} == {"human", "bot"}
  {
  }

  /** What parsing and schema validation made of a JSON-typed request body:
      parsing raised (an empty or malformed body), validation failed with its
      messages, or validation produced the data. */
  datatype Validation =
    | Unparsable(message: string)
    | Valid(data: ValidatedData, timePerField: Option<seq<real>>)
    | Invalid(messages: string)

  datatype Request = Request(isJson: bool, validation: Validation)

  /** What the scaler and the two models produced from a valid request: the
      message of an exception they raised, or the class and cluster they
      predicted. */
  datatype ModelOutcome =
    | Raised(message: string)
    | Predicted(prediction: int, cluster: int)

  /** Python's `str` of an integer. */
  function IntToString(n: int): string {
    if n >= 0 then Text.Decimal(n) else "-" + Text.Decimal(-n)
  }

  function MismatchMessage(got: int): string {
    "Feature count mismatch: Expected 21, got " + IntToString(got)
  }

  /** The endpoint: 400 before parsing for a non-JSON request, 500 with the
      parser's message for a body that does not parse, 400 with the
      validation messages, 400 on a length mismatch, 500 with the message of
      an exception from the models, otherwise 200 with the label and
      cluster. */
  function Predict(request: Request, outcome: ModelOutcome): (reply: Reply)
    ensures reply.status == StatusBadRequest <==> !request.isJson || request.validation.Invalid?
    ensures reply.status == StatusServerError <==>
      request.isJson && (request.validation.Unparsable? || (request.validation.Valid? && outcome.Raised?))
    ensures reply.status == StatusOk <==> request.isJson && request.validation.Valid? && outcome.Predicted?
    ensures !request.isJson ==> reply.body == Error(NotJsonMessage)
    ensures request.isJson && request.validation.Invalid? ==> reply.body == Error(request.validation.messages)
    ensures request.isJson && request.validation.Unparsable? ==> reply.body == Error(request.validation.message)
    ensures request.isJson && request.validation.Valid? && outcome.Raised? ==> reply.body == Error(outcome.message)
    ensures reply.status == StatusOk ==>
      reply.body == Prediction(Label(outcome.prediction), outcome.cluster)
  {
    if !request.isJson then Reply(StatusBadRequest, Error(NotJsonMessage))
    else
      match request.validation
      case Unparsable(message) => Reply(StatusServerError, Error(message))
      case Invalid(messages) => Reply(StatusBadRequest, Error(messages))
      case Valid(data, timePerField) =>
        var features := BuildFeatures(data, timePerField);
        if |features| != FeatureCount then Reply(StatusBadRequest, Error(MismatchMessage(|features|)))
        else
          match outcome
          case Raised(message) => Reply(StatusServerError, Error(message))
          case Predicted(prediction, cluster) => Reply(StatusOk, Prediction(Label(prediction), cluster))
  }
}

=== FILE: fixed_app.dfy ===
/** Feature-vector assembly of the fixed prediction backend: validated request
    data becomes an ordered list of numbers, or an error naming what is
    missing. The vector is the seventeen named measurements in a fixed order,
    then the Time_per_Field timings in iteration order, then the number of
    clicks of each known click type. */
module FixedApp {
  import opened Wrappers
  import opened FeatureSchema
  import opened Http
  import Text

  /** Validated request data: field name to value. A name that is absent and
      a name bound to `None` read the same. */
  type ValidatedData = map<string, Option<real>>

  /** One Time_per_Field entry: the form field's name and its time. */
  type TimeEntry = (string, Option<real>)

  /** The measurements copied to the front of the vector, in vector order. */
  const ScalarFeatures: seq<string> := [
    "Mouse_Speed",
    "Movement_Smoothness",
    "Acceleration",
    "Direction_Changes",
    "Session_Duration",
    "Total_Session_Time",
    "Time_to_Submit",
    "Typing_Speed",
    "Inter_Key_Interval",
    "Keystroke_Duration",
    "Typing_Variability",
    "Click_Interval",
    "Click_Rate",
    "Click_Consistency",
    "Idle_Time_Between_Actions",
    "Idle_Time_Before_CAPTCHA",
    "Total_Idle_Time"
  ]

  /** The handler's list is exactly the schema's plain fields, in declaration
      order: no plain field is skipped and none is read twice. */
  lemma ScalarFeaturesAreSchemaScalars()
    ensures ScalarFeatures == ScalarNames(PredictionSchema)
  {
    ScalarPrefixNames(PredictionSchema, 17);
    assert PredictionSchema[..19] == PredictionSchema;
    assert PredictionSchema[..19][..18] == PredictionSchema[..18];
    assert PredictionSchema[..18][..17] == PredictionSchema[..17];
  }

  /** The length the model's scaler was trained on, derived from the schema. */
  const ExpectedFeaturesCount: nat := ExpectedCount(Kinds(PredictionSchema))

  datatype ExtractError =
    | MissingFeature(name: string)
    | MissingTimePerField
    | MissingTimeValue(field: string)
    | CountMismatch(expected: nat, got: nat)

  /** The error text the endpoint sends back. */
  function Message(e: ExtractError): string {
    match e
    case MissingFeature(name) => "Missing feature: " + name
    case MissingTimePerField => "Missing 'Time_per_Field' data."
    case MissingTimeValue(field) => "Missing time value for field: " + field
    case CountMismatch(expected, got) =>
      "Feature count mismatch: Expected " + Text.Decimal(expected) + ", but got " + Text.Decimal(got) + "."
  }

  /** `validated_data.get(key)`. */
  function Get(data: ValidatedData, key: string): Option<real> {
    if key in data then data[key] else None
  }

  /** `names[i]` is the first name in the list with no value. */
  predicate FirstMissing(data: ValidatedData, names: seq<string>, i: int) {
    && 0 <= i < |names|
    && Get(data, names[i]).None?
    && forall j :: 0 <= j < i ==> Get(data, names[j]).Some?
  }

  predicate AllPresent(data: ValidatedData, names: seq<string>) {
    forall i :: 0 <= i < |names| ==> Get(data, names[i]).Some?
  }

  /** Copies the named values in order, stopping at the first missing one. */
  function ExtractScalars(data: ValidatedData, names: seq<string>): (r: Result<seq<real>, ExtractError>)
    ensures r.Success? <==> AllPresent(data, names)
    ensures r.Success? ==> |r.value| == |names|
    ensures r.Success? ==> forall i :: 0 <= i < |names| ==> Get(data, names[i]) == Some(r.value[i])
    ensures r.Failure? ==> exists i :: FirstMissing(data, names, i) && r.error == MissingFeature(names[i])
  {
    if |names| == 0 then Success([])
    else
      match ExtractScalars(data, names[..|names| - 1])
      case Failure(e) => Failure(e)
      case Success(front) =>
        match Get(data, names[|names| - 1])
        case None => Failure(MissingFeature(names[|names| - 1]))
        case Some(v) => Success(front + [v])
  }

  /** `times[i]` is the first Time_per_Field entry whose time is `None`. */
  predicate FirstNoneTime(times: seq<TimeEntry>, i: int) {
    && 0 <= i < |times|
    && times[i].1.None?
    && forall j :: 0 <= j < i ==> times[j].1.Some?
  }

  predicate AllTimed(times: seq<TimeEntry>) {
    forall i :: 0 <= i < |times| ==> times[i].1.Some?
  }

  /** Appends each field's time in iteration order, stopping at the first
      `None`. */
  function FlattenTimes(times: seq<TimeEntry>): (r: Result<seq<real>, ExtractError>)
    ensures r.Success? <==> AllTimed(times)
    ensures r.Success? ==> |r.value| == |times|
    ensures r.Success? ==> forall i :: 0 <= i < |times| ==> times[i].1 == Some(r.value[i])
    ensures r.Failure? ==> exists i :: FirstNoneTime(times, i) && r.error == MissingTimeValue(times[i].0)
  {
    if |times| == 0 then Success([])
    else
      match FlattenTimes(times[..|times| - 1])
      case Failure(e) => Failure(e)
      case Success(front) =>
        match times[|times| - 1].1
        case None => Failure(MissingTimeValue(times[|times| - 1].0))
        case Some(v) => Success(front + [v])
  }

  /** `click_counts.get(key, 0)`. */
  function CountIn(counts: map<string, nat>, key: string): nat {
    if key in counts then counts[key] else 0
  }

  /** The dictionary of click counts, built one click at a time. */
  function Tally(clicks: seq<string>): map<string, nat> {
    if |clicks| == 0 then map[]
    else
      var counts := Tally(clicks[..|clicks| - 1]);
      var click := clicks[|clicks| - 1];
      counts[click := CountIn(counts, click) + 1]
  }

  /** The tally of a click holds its number of occurrences. */
  lemma {:induction false} TallyCountsOccurrences(clicks: seq<string>, t: string)
    ensures CountIn(Tally(clicks), t) == multiset(clicks)[t]
  {
    if |clicks| > 0 {
      var front := clicks[..|clicks| - 1];
      assert clicks == front + [clicks[|clicks| - 1]];
      TallyCountsOccurrences(front, t);
    }
  }

  /** The four trailing features: occurrences of each known click type. */
  function ClickFeatures(clicks: seq<string>): (r: seq<real>)
    ensures |r| == |KnownClickTypes|
    ensures forall k :: 0 <= k < |KnownClickTypes| ==> r[k] == multiset(clicks)[KnownClickTypes[k]] as real
  {
    TallyCountsAll(clicks);
    seq(|KnownClickTypes|, k requires 0 <= k < |KnownClickTypes| => CountIn(Tally(clicks), KnownClickTypes[k]) as real)
  }

  lemma TallyCountsAll(clicks: seq<string>)
    ensures forall t :: CountIn(Tally(clicks), t) == multiset(clicks)[t]
  {
    forall t {
      TallyCountsOccurrences(clicks, t);
    }
  }

  /** A click string outside the four known types leaves the counts alone. */
  lemma UnknownClickIgnored(clicks: seq<string>, u: string)
    requires u !in KnownClickTypes
    ensures ClickFeatures(clicks + [u]) == ClickFeatures(clicks)
  {
    assert multiset(clicks + [u]) == multiset(clicks) + multiset{u};
  }

  function KnownClickTotal(clicks: seq<string>): nat {
    multiset(clicks)["left_click"] + multiset(clicks)["right_click"]
      + multiset(clicks)["double_click"] + multiset(clicks)["middle_click"]
  }

  /** The four counts together never exceed the number of clicks. */
  lemma {:induction false} KnownClickTotalBounded(clicks: seq<string>)
    ensures KnownClickTotal(clicks) <= |clicks|
  {
    if |clicks| > 0 {
      var front := clicks[..|clicks| - 1];
      assert clicks == front + [clicks[|clicks| - 1]];
      assert multiset(clicks) == multiset(front) + multiset{clicks[|clicks| - 1]};
      KnownClickTotalBounded(front);
    }
  }

  /** The whole extraction: named measurements, then Time_per_Field (which
      must be non-empty and fully timed), then the click counts, then the
      length check against the schema-derived count. */
  function ExtractFeatures(data: ValidatedData, times: seq<TimeEntry>, clicks: seq<string>)
    : (r: Result<seq<real>, ExtractError>)
    ensures r.Success? ==> |r.value| == 24 && |times| == 3
    ensures r.Success? ==> forall i :: 0 <= i < |ScalarFeatures| ==> Get(data, ScalarFeatures[i]) == Some(r.value[i])
    ensures r.Success? ==> forall j :: 0 <= j < |times| ==> times[j].1 == Some(r.value[17 + j])
    ensures r.Success? ==> forall k :: 0 <= k < |KnownClickTypes| ==> r.value[20 + k] == multiset(clicks)[KnownClickTypes[k]] as real
  {
    ExpectedFeatureCountIs24();
    match ExtractScalars(data, ScalarFeatures)
    case Failure(e) => Failure(e)
    case Success(scalars) =>
      if |times| == 0 then Failure(MissingTimePerField)
      else
        match FlattenTimes(times)
        case Failure(e) => Failure(e)
        case Success(timings) =>
          var features := scalars + timings + ClickFeatures(clicks);
          if |features| != ExpectedFeaturesCount then Failure(CountMismatch(ExpectedFeaturesCount, |features|))
          else Success(features)
  }

  /** A missing measurement is reported by name, the first one in list order,
      whatever the rest of the request holds. */
  lemma ExtractReportsFirstMissingFeature(data: ValidatedData, times: seq<TimeEntry>, clicks: seq<string>, i: int)
    requires FirstMissing(data, ScalarFeatures, i)
    ensures ExtractFeatures(data, times, clicks) == Failure(MissingFeature(ScalarFeatures[i]))
  {
    var r := ExtractScalars(data, ScalarFeatures);
    var i' :| FirstMissing(data, ScalarFeatures, i') && r.error == MissingFeature(ScalarFeatures[i']);
    assert i' == i;
  }

  /** With every measurement present, an empty Time_per_Field is an error. */
  lemma ExtractRequiresTimePerField(data: ValidatedData, clicks: seq<string>)
    requires AllPresent(data, ScalarFeatures)
    ensures ExtractFeatures(data, [], clicks) == Failure(MissingTimePerField)
  {
  }

  /** With every measurement present, a `None` time is reported by its field
      name, the first one in iteration order. */
  lemma ExtractReportsFirstUntimedField(data: ValidatedData, times: seq<TimeEntry>, clicks: seq<string>, i: int)
    requires AllPresent(data, ScalarFeatures)
    requires FirstNoneTime(times, i)
    ensures ExtractFeatures(data, times, clicks) == Failure(MissingTimeValue(times[i].0))
  {
    var r := FlattenTimes(times);
    var i' :| FirstNoneTime(times, i') && r.error == MissingTimeValue(times[i'].0);
    assert i' == i;
  }

  /** Once the measurements and timings are all there, the vector has
      17 + |Time_per_Field| + 4 entries, so the length check fails exactly
      when Time_per_Field does not have three entries. */
  lemma ExtractLengthCheck(data: ValidatedData, times: seq<TimeEntry>, clicks: seq<string>)
    requires AllPresent(data, ScalarFeatures)
    requires |times| > 0 && AllTimed(times)
    ensures |times| == 3 <==> ExtractFeatures(data, times, clicks).Success?
    ensures |times| != 3 <==> ExtractFeatures(data, times, clicks) == Failure(CountMismatch(24, 21 + |times|))
  {
    ExpectedFeatureCountIs24();
  }

  /** The extraction succeeds exactly on complete requests. */
  lemma ExtractSucceedsIff(data: ValidatedData, times: seq<TimeEntry>, clicks: seq<string>)
    ensures ExtractFeatures(data, times, clicks).Success?
        <==> AllPresent(data, ScalarFeatures) && |times| == 3 && AllTimed(times)
  {
    if AllPresent(data, ScalarFeatures) && |times| > 0 && AllTimed(times) {
      ExtractLengthCheck(data, times, clicks);
    }
  }

  /** Class 0 from the classifier is a human, anything else a bot. */
  function Label(cls: int): (verdict: string)
    ensures verdict == "human" <==> cls == 0
    ensures verdict == "bot" <==> cls != 0
  {
    if cls == 0 then "human" else "bot"
  }

  /** The reply built from the extraction and the classifier's outputs, which
      are taken as given: `cls` is the logistic regression's class and
      `cluster` the KMeans cluster id. */
  function Respond(data: ValidatedData, times: seq<TimeEntry>, clicks: seq<string>, cls: int, cluster: int)
    : (reply: Reply)
    ensures reply.status == StatusOk <==> ExtractFeatures(data, times, clicks).Success?
    ensures reply.status != StatusOk ==>
      reply == Reply(StatusBadRequest, Error(Message(ExtractFeatures(data, times, clicks).error)))
    ensures reply.status == StatusOk ==> reply.body == Prediction(Label(cls), cluster)
  {
    match ExtractFeatures(data, times, clicks)
    case Failure(e) => Reply(StatusBadRequest, Error(Message(e)))
    case Success(_) => Reply(StatusOk, Prediction(Label(cls), cluster))
  }
}

=== FILE: http.dfy ===
/** The JSON replies the prediction endpoints send: a status code and either
    a prediction or an error message. */
module Http {

  const StatusOk := 200
  const StatusBadRequest := 400
  const StatusServerError := 500

  datatype Body =
    | Prediction(verdict: string, clusterLabel: int)
    | Error(message: string)

  datatype Reply = Reply(status: int, body: Body)

  /** The reply to a request whose Content-Type is not JSON. */
  const NotJsonMessage: string := "Content-Type must be 'application/json'"
}

=== FILE: schema.dfy ===
/** The shape of the prediction request schema of the fixed backend, and the
    feature count the backend derives from it at start-up: each plain field
    contributes one feature, a nested schema one feature per sub-field, and
    the click list one count per known click type. */
module FeatureSchema {

  /** The click types the click list is count-encoded over, in vector order. */
  const KnownClickTypes: seq<string> := ["left_click", "right_click", "double_click", "middle_click"]

  datatype FieldKind =
    | Scalar
    | Nested(subfields: nat)
    | List

  /** How many features one field contributes. */
  function Width(k: FieldKind): nat {
    match k
    case Scalar => 1
    case Nested(n) => n
    case List => |KnownClickTypes|
  }

  /** The start-up fold over the declared fields, in declaration order. */
  function ExpectedCount(fields: seq<FieldKind>): nat {
    if |fields| == 0 then 0 else ExpectedCount(fields[..|fields| - 1]) + Width(fields[|fields| - 1])
  }

  /** A declared field of the request schema. */
  datatype Field = Field(name: string, kind: FieldKind)

  /** The declared fields, in declaration order: seventeen numbers, the
      nested per-field timings (username, password, email) and the click
      list. */
  const PredictionSchema: seq<Field> := [
    Field("Mouse_Speed", Scalar),
    Field("Movement_Smoothness", Scalar),
    Field("Acceleration", Scalar),
    Field("Direction_Changes", Scalar),
    Field("Session_Duration", Scalar),
    Field("Total_Session_Time", Scalar),
    Field("Time_to_Submit", Scalar),
    Field("Typing_Speed", Scalar),
    Field("Inter_Key_Interval", Scalar),
    Field("Keystroke_Duration", Scalar),
    Field("Typing_Variability", Scalar),
    Field("Click_Interval", Scalar),
    Field("Click_Rate", Scalar),
    Field("Click_Consistency", Scalar),
    Field("Idle_Time_Between_Actions", Scalar),
    Field("Idle_Time_Before_CAPTCHA", Scalar),
    Field("Total_Idle_Time", Scalar),
    Field("Time_per_Field", Nested(3)),
    Field("Sequence_of_Clicks", List)
  ]

  /** The kinds of the declared fields, in declaration order. */
  function Kinds(fields: seq<Field>): (kinds: seq<FieldKind>)
    ensures |kinds| == |fields|
    ensures forall i :: 0 <= i < |fields| ==> kinds[i] == fields[i].kind
  {
    if |fields| == 0 then [] else Kinds(fields[..|fields| - 1]) + [fields[|fields| - 1].kind]
  }

  /** The names of the plain fields, in declaration order. */
  function ScalarNames(fields: seq<Field>): seq<string> {
    if |fields| == 0 then []
    else
      var last := fields[|fields| - 1];
      ScalarNames(fields[..|fields| - 1]) + if last.kind == Scalar then [last.name] else []
  }

  /** The count is additive over a split of the declaration list, so it does
      not depend on where the nested and list fields are declared. */
  lemma {:induction false} ExpectedCountAppend(a: seq<FieldKind>, b: seq<FieldKind>)
    ensures ExpectedCount(a + b) == ExpectedCount(a) + ExpectedCount(b)
    decreases |b|
  {
    if |b| > 0 {
      var b' := b[..|b| - 1];
      assert (a + b)[..|a + b| - 1] == a + b';
      ExpectedCountAppend(a, b');
    } else {
      assert a + b == a;
    }
  }

  /** A prefix made only of plain fields contributes one feature per field. */
  lemma {:induction false} ScalarPrefixCount(kinds: seq<FieldKind>, m: nat)
    requires m <= |kinds|
    requires forall i :: 0 <= i < m ==> kinds[i] == Scalar
    ensures ExpectedCount(kinds[..m]) == m
  {
    if m > 0 {
      assert kinds[..m][..m - 1] == kinds[..m - 1];
      ScalarPrefixCount(kinds, m - 1);
    }
  }

  /** A prefix made only of plain fields names every one of them, in order. */
  lemma {:induction false} ScalarPrefixNames(fields: seq<Field>, m: nat)
    requires m <= |fields|
    requires forall i :: 0 <= i < m ==> fields[i].kind == Scalar
    ensures |ScalarNames(fields[..m])| == m
    ensures forall i :: 0 <= i < m ==> ScalarNames(fields[..m])[i] == fields[i].name
  {
    if m > 0 {
      assert fields[..m][..m - 1] == fields[..m - 1];
      ScalarPrefixNames(fields, m - 1);
    }
  }

  /** The backend expects 24 features: 17 + 3 + 4. */
  lemma ExpectedFeatureCountIs24()
    ensures ExpectedCount(Kinds(PredictionSchema)) == 24
  {
    var kinds := Kinds(PredictionSchema);
    ScalarPrefixCount(kinds, 17);
    var tail := [Nested(3), List];
    assert kinds == kinds[..17] + tail;
    ExpectedCountAppend(kinds[..17], tail);
    assert tail[..1] == [Nested(3)];
    assert [Nested(3)][..0] == [];
  }
}

=== FILE: text.dfy ===
/** String helpers: the ASCII case folding a JavaScript `/i` regular
    expression applies to ASCII patterns, case-insensitive substring search,
    and the decimal rendering Python's f-strings use for non-negative
    integers. */
module Text {

  /** Maps 'A'..'Z' to 'a'..'z' and leaves every other character alone. */
  function Fold(c: char): char {
    if 'A' <= c <= 'Z' then (c as int + 32) as char else c
  }

  /** The string with every character folded. */
  function Lower(s: string): (r: string)
    ensures |r| == |s|
    ensures forall i :: 0 <= i < |s| ==> r[i] == Fold(s[i])
  {
    seq(|s|, i requires 0 <= i < |s| => Fold(s[i]))
  }

  /** Folding twice is folding once. */
  lemma FoldIdempotent(c: char)
    ensures Fold(Fold(c)) == Fold(c)
  {
  }

  /** `t` occurs in `s` at offset `i`, ignoring ASCII case. */
  predicate MatchesAt(s: string, t: string, i: int) {
    && 0 <= i
    && i + |t| <= |s|
    && forall k :: 0 <= k < |t| ==> Fold(s[i + k]) == Fold(t[k])
  }

  /** The specification of a case-insensitive substring test. */
  predicate ContainsFold(s: string, t: string) {
    exists i :: 0 <= i <= |s| - |t| && MatchesAt(s, t, i)
  }

  /** Left-to-right scan for `t` in `s`, trying offsets `i`, `i + 1`, ...
      The way a regular-expression engine tests a literal alternative. */
  function SearchFrom(s: string, t: string, i: nat): (found: bool)
    ensures found <==> exists j :: i <= j && MatchesAt(s, t, j)
    decreases |s| - i
  {
    if i + |t| > |s| then false
    else if MatchesAt(s, t, i) then true
    else SearchFrom(s, t, i + 1)
  }

  /** The scan from offset 0 decides the specification. */
  function ContainsIgnoringCase(s: string, t: string): (found: bool)
    ensures found <==> ContainsFold(s, t)
  {
    SearchFrom(s, t, 0)
  }

  /** A non-empty pattern never occurs in the empty string. */
  lemma EmptyContainsNothing(t: string)
    requires |t| > 0
    ensures !ContainsFold("", t)
  {
  }

  /** Changing the case of the searched string does not change the answer. */
  lemma {:induction false} ContainsFoldLower(s: string, t: string)
    ensures ContainsFold(Lower(s), t) <==> ContainsFold(s, t)
  {
    forall c: char
      ensures Fold(Fold(c)) == Fold(c)
    {
      FoldIdempotent(c);
    }
    assert forall i :: 0 <= i <= |s| - |t| ==> (MatchesAt(Lower(s), t, i) <==> MatchesAt(s, t, i));
  }

  /** If some character of the pattern folds to a character that no
      character of `s` folds to, the pattern cannot occur in `s`. */
  lemma {:induction false} AbsentLetterRulesOut(s: string, t: string, k: nat)
    requires k < |t|
    requires forall j :: 0 <= j < |s| ==> Fold(s[j]) != Fold(t[k])
    ensures !ContainsFold(s, t)
  {
    forall i | 0 <= i <= |s| - |t|
      ensures !MatchesAt(s, t, i)
    {
      assert Fold(s[i + k]) != Fold(t[k]);
    }
  }

  function DigitChar(d: nat): char
    requires d < 10
  {
    ('0' as int + d) as char
  }

  function DigitValue(c: char): int {
    c as int - '0' as int
  }

  predicate IsDigit(c: char) {
    '0' <= c <= '9'
  }

  /** Decimal rendering of a non-negative integer, most significant digit
      first, without leading zeros. */
  function Decimal(n: nat): (s: string)
    ensures |s| >= 1
    ensures forall i :: 0 <= i < |s| ==> IsDigit(s[i])
    ensures n >= 10 ==> s[0] != '0'
    ensures |s| == 1 <==> n < 10
  {
    if n < 10 then [DigitChar(n)] else Decimal(n / 10) + [DigitChar(n % 10)]
  }

  /** Reads a string of decimal digits back as a number. */
  function ParseDecimal(s: string): int {
    if |s| == 0 then 0 else ParseDecimal(s[..|s| - 1]) * 10 + DigitValue(s[|s| - 1])
  }

  /** The rendering loses nothing: reading it back gives the number. */
  lemma {:induction false} DecimalRoundTrip(n: nat)
    ensures ParseDecimal(Decimal(n)) == n
  {
    if n >= 10 {
      var s := Decimal(n);
      assert s[..|s| - 1] == Decimal(n / 10);
      DecimalRoundTrip(n / 10);
    }
  }
}

=== FILE: view_controller.dfy ===
/** The root App component: an `isMobile` flag that starts false, is set by
    the device check once at mount and again on every window resize, a
    resize listener registered at mount and removed at unmount, the one view
    and loading message the flag selects, and the stylesheet that hides each
    view's container by width alone. */
module ViewController {
  import opened Wrappers
  import Device
  import Text

  /** What the browser reports: the user agent and the window's inner width. */
  datatype Env = Env(userAgent: string, width: int)

  /** The browser window's resize listeners. Every mount creates a new
      `checkDevice` closure; closures are told apart by the counter value
      they were created at. */
  datatype Window = Window(resizeListeners: set<nat>, nextClosure: nat)

  /** The App component: its state and the closure its mount effect
      registered, if the effect has run. */
  datatype App = App(isMobile: bool, handler: Option<nat>)

  datatype Page = Page(app: App, window: Window)

  /** Every closure in use was created before the counter's current value. */
  predicate Wf(p: Page) {
    && (forall h :: h in p.window.resizeListeners ==> h < p.window.nextClosure)
    && (p.app.handler.Some? ==> p.app.handler.value < p.window.nextClosure)
  }

  /** The effect has run and its listener is still registered. */
  predicate Listening(p: Page) {
    p.app.handler.Some? && p.app.handler.value in p.window.resizeListeners
  }

  /** The first render, before any effect: `useState(false)`. */
  function FirstRender(w: Window): (p: Page)
    ensures !p.app.isMobile && p.app.handler.None? && p.window == w
  {
    Page(App(false, None), w)
  }

  /** The mount effect: run the device check once, then register a new
      closure as a resize listener. */
  function Mount(p: Page, env: Env): (q: Page)
    requires p.app.handler.None?
    ensures Listening(q)
    ensures q.app.isMobile == Device.CheckDevice(env.userAgent, env.width)
    ensures Wf(p) ==> Wf(q) && q.app.handler.value !in p.window.resizeListeners
    ensures q.window.resizeListeners == p.window.resizeListeners + {q.app.handler.value}
  {
    var h := p.window.nextClosure;
    Page(App(Device.CheckDevice(env.userAgent, env.width), Some(h)),
         Window(p.window.resizeListeners + {h}, h + 1))
  }

  /** A resize event: the window calls the App's closure if it is still
      registered, and that closure runs the device check again. */
  function Resize(p: Page, env: Env): (q: Page)
    ensures q.window == p.window && q.app.handler == p.app.handler
    ensures Listening(p) ==> q.app.isMobile == Device.CheckDevice(env.userAgent, env.width)
    ensures !Listening(p) ==> q == p
  {
    if Listening(p) then Page(p.app.(isMobile := Device.CheckDevice(env.userAgent, env.width)), p.window)
    else p
  }

  /** A run of resize events, in dispatch order. */
  function ResizeAll(p: Page, envs: seq<Env>): Page
    decreases |envs|
  {
    if |envs| == 0 then p else ResizeAll(Resize(p, envs[0]), envs[1..])
  }

  /** The cleanup: remove the very closure the mount registered. */
  function Unmount(p: Page): (q: Page)
    ensures q.app == p.app && q.window.nextClosure == p.window.nextClosure
    ensures !Listening(q)
    ensures p.app.handler.Some? ==>
      q.window.resizeListeners == p.window.resizeListeners - {p.app.handler.value}
    ensures p.app.handler.None? ==> q == p
  {
    match p.app.handler
    case None => p
    case Some(h) => Page(p.app, p.window.(resizeListeners := p.window.resizeListeners - {h}))
  }

  /** A resize that does not change the classification changes nothing, so
      React has nothing to re-render. */
  lemma SameClassificationNoChange(p: Page, env: Env)
    requires Listening(p)
    requires Device.CheckDevice(env.userAgent, env.width) == p.app.isMobile
    ensures Resize(p, env) == p
  {
  }

  /** While mounted, the flag follows the most recent resize, and the
      listener set is left alone. */
  lemma {:induction false} FlagFollowsLatestResize(p: Page, envs: seq<Env>)
    requires Listening(p)
    ensures ResizeAll(p, envs).window == p.window
    ensures ResizeAll(p, envs).app.handler == p.app.handler
    ensures |envs| == 0 ==> ResizeAll(p, envs).app.isMobile == p.app.isMobile
    ensures |envs| > 0 ==>
      ResizeAll(p, envs).app.isMobile == Device.CheckDevice(envs[|envs| - 1].userAgent, envs[|envs| - 1].width)
    decreases |envs|
  {
    if |envs| > 0 {
      FlagFollowsLatestResize(Resize(p, envs[0]), envs[1..]);
    }
  }

  /** After the cleanup, no resize event reaches the App: its state never
      changes again. */
  lemma {:induction false} NoUpdateAfterUnmount(p: Page, envs: seq<Env>)
    ensures ResizeAll(Unmount(p), envs) == Unmount(p)
    decreases |envs|
  {
    if |envs| > 0 {
      NoUpdateAfterUnmount(p, envs[1..]);
    }
  }

  /** Mount, any number of resizes and unmount leave the window with the
      listeners it had before. */
  lemma ListenersRestored(w: Window, env: Env, envs: seq<Env>)
    requires Wf(FirstRender(w))
    ensures Unmount(ResizeAll(Mount(FirstRender(w), env), envs)).window.resizeListeners == w.resizeListeners
  {
    FlagFollowsLatestResize(Mount(FirstRender(w), env), envs);
  }

  datatype View = MobileLogin | DesktopLogin

  datatype Container = MobileContainer | DesktopContainer

  /** The conditional in the App's markup. */
  function RenderedView(isMobile: bool): View {
    if isMobile then MobileLogin else DesktopLogin
  }

  function ContainerOf(v: View): Container {
    match v
    case MobileLogin => MobileContainer
    case DesktopLogin => DesktopContainer
  }

  function LoadingMessage(isMobile: bool): string {
    if isMobile then "Loading Mobile Version..." else "Loading Desktop Version..."
  }

  /** Exactly one of the two views is rendered, and the loading message
      names that one. */
  lemma ViewAndMessageAgree(isMobile: bool)
    ensures RenderedView(isMobile) == MobileLogin <==> isMobile
    ensures RenderedView(isMobile) == DesktopLogin <==> !isMobile
    ensures LoadingMessage(isMobile) == "Loading Mobile Version..." <==> RenderedView(isMobile) == MobileLogin
    ensures LoadingMessage(isMobile) == "Loading Desktop Version..." <==> RenderedView(isMobile) == DesktopLogin
  {
  }

  /** A width media query of the stylesheet. */
  datatype MediaQuery = MaxWidth(px: int) | MinWidth(px: int)

  function Holds(q: MediaQuery, width: int): bool {
    match q
    case MaxWidth(px) => width <= px
    case MinWidth(px) => width >= px
  }

  /** The stylesheet's `display: none` rules: which container each query
      hides. */
  const HidingRules: seq<(MediaQuery, Container)> := [
    (MaxWidth(768), DesktopContainer),
    (MinWidth(769), MobileContainer)
  ]

  /** Some rule hides the container at this width. */
  predicate Hidden(c: Container, width: int) {
    exists i :: 0 <= i < |HidingRules| && HidingRules[i].1 == c && Holds(HidingRules[i].0, width)
  }

  /** At every whole-pixel width exactly one container is hidden: the
      desktop one up to 768, the mobile one from 769. */
  lemma ExactlyOneContainerHidden(width: int)
    ensures Hidden(DesktopContainer, width) <==> width <= 768
    ensures Hidden(MobileContainer, width) <==> width >= 769
    ensures Hidden(DesktopContainer, width) != Hidden(MobileContainer, width)
  {
    if width <= 768 {
      assert HidingRules[0].1 == DesktopContainer && Holds(HidingRules[0].0, width);
    } else {
      assert HidingRules[1].1 == MobileContainer && Holds(HidingRules[1].0, width);
    }
  }

  /** The view the device check selects is on screen exactly when the user
      agent alone does not already say mobile at a width of 769 or more:
      there the mobile view is rendered inside a container the stylesheet
      hides. */
  lemma SelectedViewShownIff(userAgent: string, width: int)
    ensures !Hidden(ContainerOf(RenderedView(Device.CheckDevice(userAgent, width))), width)
        <==> !(Device.MobileUserAgent(userAgent) && width >= 769)
  {
    ExactlyOneContainerHidden(width);
  }

  /** An iPad user agent in a 1024-pixel viewport: the mobile view is
      rendered and hidden. */
  lemma WideTabletSeesNoForm()
    ensures RenderedView(Device.CheckDevice("iPad", 1024)) == MobileLogin
    ensures Hidden(ContainerOf(MobileLogin), 1024)
  {
    assert Text.MatchesAt("iPad", Device.MobileTokens[3], 0);
    ExactlyOneContainerHidden(1024);
  }
}

=== FILE: wrappers.dfy ===
/** The two sum types the backend models share: an optional value (Python's
    `None` or a missing dictionary entry) and a result that is either a value
    or an error (the error replies the handlers return early with). */
module Wrappers {

  datatype Option<+T> = None | Some(value: T)

  datatype Result<+R, +E> = Success(value: R) | Failure(error: E)
}
